=== FILE: README.md ===
# Networkerboard: a Dafny model of the dashboard's derived data

Networkerboard is a single-page networking dashboard. It keeps professional
contacts in memory and moves each through six lifecycle stages (Lead, Pending,
Connected, Coffee Scheduled, Follow-up Needed, Nurturing). From that list it
derives four things:

- "Today's Follow-up Hub". This is the contacts whose nurture date or an
  uncompleted one-off reminder has arrived, stably sorted by follow-up date.
- The conversion funnel. These are the invitation-success and
  coffee-conversion percentages.
- The workflow board. It has one column per stage, and each card is
  highlighted when it needs attention.
- The "Strategy Audit" panel. It sends a pruned copy of the contacts to a
  hosted language model and shows the reply or an error.

This project models those rules as pure Dafny functions over immutable
datatypes and proves their properties. Dates are ISO `YYYY-MM-DD` strings
compared lexicographically by character (`IsoDates.Less`). Characters are
Unicode scalar values, which agrees with JavaScript's code-unit order on
text inside the Basic Multilingual Plane, such as ISO dates. "Today" is always a parameter. The remote model call is
an oracle: its answer (`Gemini.ApiResponse`) is a parameter too.

Modules, one per source file:

- `types.dfy`: `Types`
- `constants.dfy`: `Constants`
- `follow_up.dfy`: `FollowUp` (the hub, App.tsx)
- `funnel.dfy`: `Funnel` (the metrics, App.tsx)
- `kanban.dfy`: `Kanban`
- `contact_card.dfy`: `ContactCard`
- `contact_detail.dfy`: `ContactDetail`
- `gemini.dfy`: `Gemini` (geminiService.ts)
- `audit.dfy`: `Audit` (AIInsights.tsx)
- `seed_facts.dfy`: `SeedFacts` (facts about the seed list)

Shared helpers:

- `Wrappers`: `Option` and `Result`.
- `Seqs`: the order-preserving `filter` and its lemmas.
- `IsoDates`: string order, plus lemmas that it is a strict total order.

The hub's sort key maps a missing date to `""`, which sorts before every
date, so undated contacts lead the queue (`FollowUp.UndatedFirst`).

## Model

| member | source | states |
|---|---|---|
| Types.StatusValue | types.ts:2-9 | definition: the string value of each of the six stages |
| Types.ParseStatus | types.ts:2-9 | reading a string back gives a stage only for that stage's own string value |
| Types.StatusValueRoundTrip | types.ts:2-9 | every stage's string value reads back as that stage |
| Types.StatusValuesDistinct | types.ts:2-9 | the six stage strings are pairwise distinct |
| Types.PeriodCode | types.ts:11 | every period's code is one of `W`, `M`, `Q`, `Y` |
| Types.ParsePeriod | types.ts:11 | a character is a review period iff it is one of `W`, `M`, `Q`, `Y`, and it reads back to its own code |
| Types.PeriodCodeRoundTrip | types.ts:11 | each of the four periods reads back from its code |
| IsoDates.Less | App.tsx:22-23 | definition: JavaScript's `<` on strings of Basic Multilingual Plane text, lexicographic by character, with a proper prefix below the longer string |
| IsoDates.LessTrichotomy | App.tsx:25 | for any two date strings exactly one of `<`, `==`, `>` holds, so the sort comparator is consistent |
| IsoDates.LessTransitive | App.tsx:25 | string `<` is transitive |
| IsoDates.AtMostIsNotGreater | App.tsx:22 | `a <= b` holds exactly when `b < a` does not |
| FollowUp.IsPendingEvent | App.tsx:23 | definition: an event is pending when it is not completed and its notify date is on or before today |
| FollowUp.NurtureDue | App.tsx:22 | definition: a follow-up date is set and is on or before today |
| FollowUp.NeedsFollowUp | App.tsx:21-24 | definition: the hub's filter, the nurture clause or a pending event |
| FollowUp.AnyPendingEvent | App.tsx:23 | the left-to-right `some` scan is true iff some event is uncompleted and notifies on or before today |
| FollowUp.DueContacts | App.tsx:21-24 | holds exactly the contacts with a set date on or before today or a pending event, as a subsequence of the list |
| FollowUp.DueCounts | App.tsx:21-24 | the filter keeps each due contact as many times as the list holds it, and no other contact |
| FollowUp.SortByFollowUp | App.tsx:25 | the sort is a permutation of its input |
| FollowUp.SortSorted | App.tsx:25 | the sorted list is ascending by follow-up date |
| FollowUp.SortStable | App.tsx:25 | for every date, the contacts with that date keep their input order |
| FollowUp.FollowUpQueue | App.tsx:20-26 | a contact is queued iff it is listed and due; the queue is a permutation of the filtered contacts, no longer than the list, and ascending |
| FollowUp.QueueCounts | App.tsx:20-26 | every due contact is queued as many times as the list holds it, and no other contact is queued |
| FollowUp.QueueStable | App.tsx:25 | contacts sharing a follow-up date appear in the queue in list order |
| FollowUp.UndatedFirst | App.tsx:25 | every queued contact without a date precedes every queued contact with one |
| FollowUp.CompletedEventsIgnored | App.tsx:23 | removing the completed events never changes whether a contact is queued |
| FollowUp.PendingEvents | App.tsx:134 | the card's "Action needed" rows are exactly the pending events, each as many times as the contact holds it, in order, and there are some iff the queue's event clause holds |
| FollowUp.HubCardAsWritten | App.tsx:149-161 | the card shows a nurture row iff the date string is at most today's, with one action row per pending event |
| FollowUp.HubRowWithoutDate | App.tsx:149 | a contact with no follow-up date still gets a nurture row, although that clause did not queue it |
| FollowUp.HubCardOf | App.tsx:149-161 | corrected card: nurture row iff the queue's nurture clause holds; action rows are the pending events |
| FollowUp.HubCardExplainsQueue | App.tsx:133-162 | a contact is due iff its corrected card shows at least one row |
| Funnel.IsConnectedStage | App.tsx:32 | definition: the four stages counted as connected |
| Funnel.IsCoffeeStage | App.tsx:35 | definition: the three stages counted as past a coffee chat |
| Funnel.CoffeeStagesAreConnected | App.tsx:31-36 | each coffee stage is a connected stage, and `Connected` is the only connected stage that is not a coffee stage |
| Funnel.ConnectedSplits | App.tsx:31-36 | connected count = coffee count + number of contacts in `Connected` |
| Funnel.RoundPercent | App.tsx:38-39 | the result is the integer nearest to 100·num/den, ties rounding up, and at most 100 when num ≤ den |
| Funnel.RoundPercentUnique | App.tsx:38-39 | any integer within that half-unit window equals the rounded percentage |
| Funnel.Rate | App.tsx:38-39 | a guarded percentage is 0 for a zero denominator, otherwise the rounded one, and always in 0..100 |
| Funnel.ComputeStats | App.tsx:29-42 | coffee ≤ connected ≤ total = list length; both rates are in 0..100, 0 on a zero denominator, and the rounded ratio otherwise |
| Kanban.ColumnIndex | components/KanbanBoard.tsx:11-18 | every stage has a column at the returned position |
| Kanban.ColumnsListEachStatusOnce | components/KanbanBoard.tsx:11-18 | six columns, every stage among them, no stage twice |
| Kanban.Column | components/KanbanBoard.tsx:24 | a column holds exactly the listed contacts in its stage, as a subsequence of the list |
| Kanban.ColumnAppend | components/KanbanBoard.tsx:24 | the column of a concatenation is the concatenation of the columns, so order within a stage is kept |
| Kanban.ShowsPlaceholder | components/KanbanBoard.tsx:37-40 | the placeholder shows iff no listed contact is in that stage |
| Kanban.Board | components/KanbanBoard.tsx:23-24 | definition: the columns of the six stages in `COLUMNS` order |
| Kanban.Columnize | components/KanbanBoard.tsx:23-24 | one column per listed stage, in stage order |
| Kanban.BoardPartitions | components/KanbanBoard.tsx:11-24 | the column sizes sum to the number of contacts |
| Kanban.ExactlyOneColumn | components/KanbanBoard.tsx:11-24 | each contact is in exactly one column, the one of its own stage |
| ContactCard.IsOverdue | components/ContactCard.tsx:14 | definition: a follow-up date is set and lies strictly before today |
| ContactCard.IsDueToday | components/ContactCard.tsx:15 | definition: the follow-up date equals today |
| ContactCard.HasPendingEvent | components/ContactCard.tsx:16-17 | definition: some uncompleted event notifies on or before today, the same test as the hub's |
| ContactCard.OverdueExcludesDueToday | components/ContactCard.tsx:14-15 | a card is never both overdue and due today |
| ContactCard.HighlightBar | components/ContactCard.tsx:27-34 | rose bar iff overdue; amber bar iff not overdue and (due today or an event is pending); never both |
| ContactCard.HighlightMatchesQueue | components/ContactCard.tsx:14-17 | a card has a bar iff the hub queues the contact |
| ContactCard.FlaggedCardIsQueued | components/ContactCard.tsx:14-17 | any card flagged overdue, due today or event-pending belongs to a queued contact |
| ContactCard.DateTone | components/ContactCard.tsx:67 | the date is rose iff overdue and amber iff due today |
| ContactCard.VisibleCommonalities | components/ContactCard.tsx:55 | at most two commonalities are shown, and they are the first ones in order |
| ContactDetail.InitialCadence | components/ContactDetail.tsx:13 | the editor starts at the contact's cadence when it is non-zero, else at the 30-day default; it never starts at 0 |
| ContactDetail.ReminderOverdueAsWritten | components/ContactDetail.tsx:81-83 | definition: the reminder box is styled overdue when the date string is below today's, the unset date included |
| ContactDetail.ReminderAgreesWithCard | components/ContactDetail.tsx:81-83 | for a set date, the reminder is styled overdue iff the board card is overdue |
| ContactDetail.UnsetReminderStyledOverdue | components/ContactDetail.tsx:81-83 | an unset date is styled overdue in the modal but not on the card |
| ContactDetail.ReminderOverdue | components/ContactDetail.tsx:81-83 | corrected styling: overdue iff the card is overdue, so never for an unset date |
| ContactDetail.ScoreDots | components/ContactDetail.tsx:100-101 | ten dots, and dot i is filled iff i < score |
| ContactDetail.FilledDots | components/ContactDetail.tsx:100-101 | the number of filled dots is the score clamped into 0..10 |
| Gemini.PruneContact | geminiService.ts:8-17 | status, company, commonalities and position/education/location (as `pos`/`edu`/`loc`) are copied unchanged; one pruned interaction per interaction, carrying its date, score, notes (as `note`) and altruism record (as `alt`); `events` is the event count |
| Gemini.PruneContactExactly | geminiService.ts:9-18 | two contacts prune to the same record iff they agree on status, company, position, education, location, commonalities, the date/score/notes/altruism of each interaction, and the event count |
| Gemini.Prune | geminiService.ts:9 | same length and order as the input, one pruned record per contact |
| Gemini.PruneAppend | geminiService.ts:9 | pruning commutes with concatenation |
| Gemini.PeriodLabel | geminiService.ts:20-25 | definition: the prompt's wording for each period |
| Gemini.PeriodLabelsDistinct | geminiService.ts:20-25 | two periods have the same label iff they are the same period |
| Gemini.BuildRequest | geminiService.ts:27-29 | the request carries the period's label and the pruned contacts, one per contact, in order |
| Gemini.Interpret | geminiService.ts:136-141 | a non-empty reply is the result, an insight exactly when its parsed value is truthy; an empty reply fails with "Empty response from AI"; a failure keeps its message, or gets "Unknown API error during audit." when it has none; no failure message is empty |
| Audit.GenerateReport | components/AIInsights.tsx:25-37 | no contacts: only the "No contacts found to analyze." error is set and no request is sent; otherwise loading starts at step 0 with the error cleared, nothing else changes, and the pruned request for the selected period is sent |
| Audit.Tick | components/AIInsights.tsx:35-37 | only the step changes, and only while loading; it advances while below 3 and stays put at 3 |
| Audit.Settle | components/AIInsights.tsx:39-47 | a reply replaces the insight (none for a falsy parsed value), and a failure stores its message or the fallback text; both end loading and change nothing else |
| Audit.Step | components/AIInsights.tsx:25-82 | a click while idle launches the report and one while loading does nothing; a period choice sets only the period; a tick is `Tick`; a reply settles the request while loading and is ignored otherwise; validity is preserved |
| Audit.Run | components/AIInsights.tsx:25-48 | every sequence of events keeps the step within the captions and any error non-empty |
| Audit.InitialValid | components/AIInsights.tsx:12-16 | the initial state is valid |
| Audit.LoadingMessage | components/AIInsights.tsx:100 | the caption index is always in bounds |
| Audit.ProgressWidth | components/AIInsights.tsx:105 | the progress width is one of 25, 50, 75, 100 |
| Audit.Visible | components/AIInsights.tsx:91-260 | the loading panel shows iff loading, and then nothing else does; the empty panel shows iff no other panel does; the error and insight panels are hidden while loading |
| Audit.ServiceMessageShown | components/AIInsights.tsx:42-43 | a failing reply shows exactly the adapter's message, so the panel's fallback text is never used for it |
| Audit.FalsyReplyClearsInsight | components/AIInsights.tsx:31-46 | a reply whose parsed value is falsy leaves no insight and no error, so the empty panel shows again |
| Audit.Dispatch | App.tsx:176-178 | events of the current mounting step its panel, events of an earlier mounting are dropped, and leaving the tab starts a new mounting in the initial state; validity is preserved |
| Audit.RunSession | App.tsx:176-178 | every sequence of inputs, tab changes included, keeps the panel valid and never returns to an earlier mounting |
| Audit.LeaveTabDropsReply | App.tsx:176-178 | after leaving the insights tab mid-request, returning and starting a new audit, the reply to the abandoned request changes nothing and the new audit is still loading |
| Audit.FailedRetryKeepsInsight | components/AIInsights.tsx:31-33 | a failed retry after a success shows the error panel next to the earlier insight |
| Constants.StatusColor | constants.tsx:7-14 | definition: the badge classes of each stage |
| Constants.StatusColorsDistinct | constants.tsx:7-14 | no two stages share a badge colour |
| Constants.SarahChen | constants.tsx:19-54 | the first seed has id '1', is nurturing, is due 2024-08-10, and has one uncompleted reminder notifying today |
| Constants.MarcusThorne | constants.tsx:55-70 | the second seed has id '2', is connected, is due yesterday, and has no reminders |
| Constants.ElenaRodriguez | constants.tsx:71-86 | the third seed has id '3', is pending, is due 2024-06-15, and has no reminders |
| Constants.DavidKim | constants.tsx:87-113 | the fourth seed has id '4', has a coffee scheduled, is due today, and has no reminders |
| Constants.MockContacts | constants.tsx:18-114 | four seeds with distinct ids '1'..'4'; the first has an uncompleted event notifying today; the second is due yesterday and the fourth today |
| SeedFacts.SeedFunnel | constants.tsx:28-95 | the seeds give total 4, connected 3, coffee 2, and rates 75% and 67% |
| SeedFacts.SeedQueue | constants.tsx:44-111 | given yesterday < today, seeds 1, 2 and 4 need a follow-up (so the hub lists them), and seed 3 needs one iff 2024-06-15 ≤ today |

## Left out

- Rendering, CSS classes, icons, the recharts charts and the hardcoded growth series (App.tsx:44-49): these are display only. The rose and amber choices are kept only where they encode a rule.
- `Date`, `toISOString`, time zones and the millisecond `overdueDays` arithmetic (App.tsx:17 and 133): "today" and "yesterday" are abstract ISO strings passed in. As a result, the hub card's "Nd overdue" versus "Due today" wording is not modelled.
- `localeCompare` locale rules and `toLocaleDateString` formatting: dates compare as plain character strings. ISO dates contain only digits and `-`, so this agrees with a collating comparison on them.
- IsoDates.Less: compares characters as Unicode scalar values, not as UTF-16 code units. It therefore differs from JavaScript's `<` for text outside the Basic Multilingual Plane: `"\uE000" < "\u{10000}"` is false in JavaScript but holds here. Dates never contain such characters.
- `Math.round` on the float `(n/d)*100` is modelled as exact round-half-up on integers. Floating-point ties such as 0.5 are not modelled.
- JavaScript numbers are doubles. Counts, scores, durations and cadences are modelled as unbounded integers, and `score` is assumed to be an integer.
- The `setInterval` timer is modelled as abstract `TimerTick` events, and only while loading. Real timing and the 1.2 s period are not modelled.
- The Gemini call, the API key, the prompt text, `JSON.stringify` of the dataset and `JSON.parse` of the reply (geminiService.ts:5 and 27-137) belong to an external service and library. A reply is the raw text plus whether its parsed value is truthy (a falsy one, such as `null`, clears the insight). A reply that does not parse is a `Threw` response carrying the parser's message. The response schema and the parsed `WeeklyInsight` fields are not modelled.
- `parseInt` in the cadence editor (components/ContactDetail.tsx:123): input parsing; only the initial value is modelled.
- The interactions tab label and the card's chat count (components/ContactDetail.tsx:51, components/ContactCard.tsx:12) display `interactions.length` directly, so there is nothing to state beyond the length itself.
- Contact selection, the modal's open and close, the detail modal's tab switching and the "Update Cycle" button, which does nothing in the source, are UI state with no rule to model. Switching away from the insights tab does matter, because it unmounts the audit panel; it is the `LeaveTab` input of `Audit.Dispatch`.
- A period choice while loading is accepted, as in the source (`Audit.Step`). The request already in flight keeps the period it was built with.

## Findings

| source | as written | input that shows it | evidently intended | confidence | as-written member | corrected member |
|---|---|---|---|---|---|---|
| App.tsx:149 | the hub card's "Nurture Cycle" row is guarded by `c.nextFollowUpDate <= today` alone, with no emptiness check | a contact with `nextFollowUpDate = ""` and an uncompleted event whose `notifyDate` is today: it is queued by the event, and its card also shows a nurture row (labelled "Due today", because `overdueDays` is NaN) | guard the row like the queue's own clause, `nextFollowUpDate && nextFollowUpDate <= today` | medium, not executed | FollowUp.HubCardAsWritten, FollowUp.HubRowWithoutDate | FollowUp.HubCardOf, FollowUp.HubCardExplainsQueue |
| components/ContactDetail.tsx:81-83 | the reminder box is styled overdue when `nextFollowUpDate < today`, and `""` is below every date | a contact with `nextFollowUpDate = ""`: the modal shows the reminder in overdue red, while the board card (which tests `nextFollowUpDate && ... < today`) does not | the same guard as the card's `isOverdue` | medium, not executed | ContactDetail.ReminderOverdueAsWritten, ContactDetail.UnsetReminderStyledOverdue | ContactDetail.ReminderOverdue, ContactDetail.ReminderAgreesWithCard |

=== FILE: audit.dfy ===
/** The strategy-audit panel: its state, the transitions caused by the
    "Run Flash Audit" button, the cosmetic progress timer and the reply of
    the model, and which panels are visible in each state. */
module Audit {
  import opened Types
  import opened Wrappers
  import Gemini

  const NoContactsMessage: string := "No contacts found to analyze."
  const FallbackMessage: string := "Failed to generate AI strategy report."

  /** The captions shown while a request is in flight, one per step. */
  const LoadingMessages: seq<string> := [
    "Pruning network meta-data...",
    "Scanning interaction patterns...",
    "Synthesizing persona profiles...",
    "Finalizing flash strategy..."
  ]

  /** The panel's state variables; `insight` holds the model's reply text. */
  datatype Panel = Panel(
    loading: bool,
    insight: Option<string>,
    error: Option<string>,
    period: ReviewPeriod,
    step: int)

  const Initial: Panel := Panel(false, None, None, W, 0)

  /** JavaScript truthiness of an optional string. */
  predicate Truthy(o: Option<string>) {
    o.Some? && o.value != ""
  }

  /** What every reachable state satisfies: the step indexes a caption and
      an error, when present, has a message. */
  predicate Valid(s: Panel) {
    && 0 <= s.step < |LoadingMessages|
    && (s.error.Some? ==> s.error.value != "")
  }

  /** The next state, and the request sent to the model if one is sent. */
  datatype Launch = Launch(next: Panel, request: Option<Gemini.AuditRequest>)

  /** `generateReport`: with no contacts it only records an error and sends
      nothing; otherwise it starts loading from step 0 with no error and
      sends the pruned contacts for the selected period. */
  function GenerateReport(s: Panel, contacts: seq<Contact>): (r: Launch)
    ensures |contacts| == 0 ==> r.request.None? && r.next == s.(error := Some(NoContactsMessage))
    ensures |contacts| > 0 ==> r.request == Some(Gemini.BuildRequest(contacts, s.period))
    ensures |contacts| > 0 ==> r.next == s.(loading := true, error := None, step := 0)
    ensures Valid(s) ==> Valid(r.next)
  {
    if |contacts| == 0 then Launch(s.(error := Some(NoContactsMessage)), None)
    else Launch(s.(loading := true, error := None, step := 0),
                Some(Gemini.BuildRequest(contacts, s.period)))
  }

  /** One firing of the progress timer, which runs only while loading: the
      step advances and stops at the last caption. */
  function Tick(s: Panel): (r: Panel)
    ensures r == s.(step := r.step)
    ensures !s.loading ==> r.step == s.step
    ensures s.loading && s.step < 3 ==> r.step == s.step + 1
    ensures s.loading && 3 <= s.step ==> r.step == s.step
    ensures 0 <= s.step <= 3 ==> 0 <= r.step <= 3
    ensures Valid(s) ==> Valid(r)
  {
    if s.loading then s.(step := if s.step < 3 then s.step + 1 else s.step) else s
  }

  /** The end of a request: a reply replaces the insight (with none when
      its parsed value is falsy), a failure becomes the error (its message,
      or the fallback text when it has none); both end loading and nothing
      else changes. */
  function Settle(s: Panel, outcome: Result<Option<string>>): (r: Panel)
    ensures !r.loading
    ensures outcome.Ok? ==> r == s.(insight := outcome.value, loading := false)
    ensures outcome.Err? ==> r.insight == s.insight && Truthy(r.error)
    ensures outcome.Err? && outcome.message != "" ==>
              r == s.(error := Some(outcome.message), loading := false)
    ensures outcome.Err? && outcome.message == "" ==>
              r == s.(error := Some(FallbackMessage), loading := false)
    ensures Valid(s) ==> Valid(r)
  {
    match outcome
    case Ok(parsed) => s.(insight := parsed, loading := false)
    case Err(message) =>
      s.(error := Some(if message != "" then message else FallbackMessage), loading := false)
  }

  /** What can happen to the panel. */
  datatype Event =
    | Click(contacts: seq<Contact>)
    | ChoosePeriod(p: ReviewPeriod)
    | TimerTick
    | Reply(response: Gemini.ApiResponse)

  /** One event in the life of a single mounted panel. The run button is
      disabled and the retry button hidden while loading, and a reply only
      settles a request that is in flight. */
  function Step(s: Panel, e: Event): (r: Panel)
    ensures e.Click? && !s.loading ==> r == GenerateReport(s, e.contacts).next
    ensures e.Click? && s.loading ==> r == s
    ensures e.ChoosePeriod? ==> r == s.(period := e.p)
    ensures e.TimerTick? ==> r == Tick(s)
    ensures e.Reply? && s.loading ==> r == Settle(s, Gemini.Interpret(e.response))
    ensures e.Reply? && !s.loading ==> r == s
    ensures Valid(s) ==> Valid(r)
  {
    match e
    case Click(contacts) => if s.loading then s else GenerateReport(s, contacts).next
    case ChoosePeriod(p) => s.(period := p)
    case TimerTick => Tick(s)
    case Reply(response) => if s.loading then Settle(s, Gemini.Interpret(response)) else s
  }

  /** Any sequence of events keeps the panel valid. */
  function Run(s: Panel, events: seq<Event>): (r: Panel)
    requires Valid(s)
    ensures Valid(r)
    decreases |events|
  {
    if |events| == 0 then s else Run(Step(s, events[0]), events[1..])
  }

  lemma InitialValid()
    ensures Valid(Initial)
  {
  }

  /** The caption under the spinner; always a real entry of the list. */
  function LoadingMessage(s: Panel): (m: string)
    requires Valid(s)
    ensures m in LoadingMessages
  {
    LoadingMessages[s.step]
  }

  /** The width of the progress bar, in percent. */
  function ProgressWidth(s: Panel): (w: int)
    requires Valid(s)
    ensures w in {25, 50, 75, 100}
  {
    (s.step + 1) * 25
  }

  /** Which of the four panels are shown. */
  datatype Visibility = Visibility(loadingPanel: bool, errorPanel: bool, insightPanel: bool, emptyPanel: bool)

  function Visible(s: Panel): (v: Visibility)
    ensures v.loadingPanel <==> s.loading
    ensures v.loadingPanel ==> !v.errorPanel && !v.insightPanel && !v.emptyPanel
    ensures v.emptyPanel <==> !v.loadingPanel && !v.errorPanel && !v.insightPanel
    ensures Valid(s) ==> (v.errorPanel <==> s.error.Some? && !s.loading)
    ensures v.insightPanel <==> s.insight.Some? && !s.loading
  {
    Visibility(
      s.loading,
      Truthy(s.error) && !s.loading,
      s.insight.Some? && !s.loading,
      s.insight.None? && !s.loading && !Truthy(s.error))
  }

  /** A failing reply shows exactly the adapter's message: the adapter never
      yields an empty message, so the panel's own fallback text is unused. */
  lemma ServiceMessageShown(s: Panel, resp: Gemini.ApiResponse)
    requires s.loading
    ensures Gemini.Interpret(resp).Err? ==>
              Step(s, Reply(resp)).error == Some(Gemini.Interpret(resp).message)
  {
  }

  /** A non-empty reply whose parsed value is falsy, such as `null`, ends
      a request with no insight and no error, so the empty panel is shown
      again even after an earlier successful audit. */
  lemma FalsyReplyClearsInsight(s: Panel, contacts: seq<Contact>, text: string)
    requires !s.loading && |contacts| > 0 && text != ""
    ensures var t := Step(Step(s, Click(contacts)), Reply(Gemini.Replied(text, false)));
            t.insight.None? && t.error.None? && Visible(t).emptyPanel
  {
  }

  /** The panel is mounted only while the insights tab is shown. `mount`
      counts the mountings so far and `panel` is the state of the current
      one; leaving the tab discards that state. */
  datatype Session = Session(mount: nat, panel: Panel)

  /** What reaches the tab: an event addressed to the panel of a given
      mounting (the button handlers, the timer and the reply of a request
      all belong to the mounting that created them), or leaving the tab. */
  datatype Input = Deliver(mount: nat, e: Event) | LeaveTab

  /** Events of the current mounting step its panel; those of an earlier
      mounting call the setters of an unmounted panel and are dropped;
      leaving the tab starts the next mounting from the initial state. */
  function Dispatch(s: Session, i: Input): (r: Session)
    ensures r.mount >= s.mount
    ensures i.LeaveTab? ==> r == Session(s.mount + 1, Initial)
    ensures i.Deliver? && i.mount == s.mount ==> r == s.(panel := Step(s.panel, i.e))
    ensures i.Deliver? && i.mount != s.mount ==> r == s
    ensures Valid(s.panel) ==> Valid(r.panel)
  {
    match i
    case LeaveTab => Session(s.mount + 1, Initial)
    case Deliver(m, e) => if m == s.mount then s.(panel := Step(s.panel, e)) else s
  }

  /** Any sequence of inputs, tab changes included, keeps the current panel
      valid and never goes back to an earlier mounting. */
  function RunSession(s: Session, inputs: seq<Input>): (r: Session)
    requires Valid(s.panel)
    ensures Valid(r.panel)
    ensures r.mount >= s.mount
    decreases |inputs|
  {
    if |inputs| == 0 then s else RunSession(Dispatch(s, inputs[0]), inputs[1..])
  }

  /** Leaving the tab mid-request loses the request: after returning and
      starting a new audit, the reply to the abandoned request changes
      nothing, whatever it says, and the new audit is still loading. */
  lemma LeaveTabDropsReply(s: Session, contacts: seq<Contact>, resp: Gemini.ApiResponse)
    requires !s.panel.loading && |contacts| > 0
    ensures var started := Dispatch(s, Deliver(s.mount, Click(contacts)));
            var restarted := Dispatch(Dispatch(started, LeaveTab), Deliver(s.mount + 1, Click(contacts)));
            && started.panel.loading
            && restarted.panel.loading
            && Dispatch(restarted, Deliver(s.mount, Reply(resp))) == restarted
  {
  }

  /** A failed retry after a successful audit shows the error panel next to
      the earlier insight, which a failing reply does not clear. */
  lemma FailedRetryKeepsInsight(s: Panel, contacts: seq<Contact>, resp: Gemini.ApiResponse)
    requires !s.loading && s.insight.Some? && |contacts| > 0
    requires Gemini.Interpret(resp).Err?
    ensures var t := Step(Step(s, Click(contacts)), Reply(resp));
            Visible(t).errorPanel && Visible(t).insightPanel && t.insight == s.insight
  {
  }
}

=== FILE: constants.dfy ===
/** The dashboard's constants: the default follow-up cadence, the badge
    colour of each stage, and the four seed contacts the session starts with. */
module Constants {
  import opened Types

  /** Days between follow-ups when a contact has no cadence of its own. */
  const GlobalDefaultInterval: int := 30

  /** The badge classes for each stage; the record has one entry per stage. */
  function StatusColor(s: ContactStatus): (r: string)
  {
    match s
    case Lead => "bg-slate-100 text-slate-700 border-slate-200"
    case Pending => "bg-amber-50 text-amber-700 border-amber-200"
    case Connected => "bg-blue-50 text-blue-700 border-blue-200"
    case CoffeeScheduled => "bg-purple-50 text-purple-700 border-purple-200"
    case FollowUpNeeded => "bg-rose-50 text-rose-700 border-rose-200"
    case Nurturing => "bg-emerald-50 text-emerald-700 border-emerald-200"
  }

  /** No two stages share a badge colour. */
  lemma StatusColorsDistinct(s: ContactStatus, t: ContactStatus)
    ensures StatusColor(s) == StatusColor(t) <==> s == t
  {
  }

  /** The first seed: nurturing, with a product-launch reminder that
      notifies today. */
  function SarahChen(today: string): (c: Contact)
    ensures c.id == "1" && c.status == Nurturing && c.nextFollowUpDate == "2024-08-10"
    ensures c.oneOffEvents == [OneOffEvent("e1", "New Product Launch", "2024-12-01", today, false)]
  {
    Contact(
      "1", "Sarah Chen", "TechFlow AI", "Senior Product Manager",
      "San Francisco, CA", "Stanford University",
      "https://linkedin.com/in/sarahchen", Nurturing,
      ["Stanford Alumni", "Former Google", "SF Based"],
      [Interaction(
         "int1", "2024-05-10", 45,
         "Discussed the future of generative AI in B2B SaaS.",
         "She loves bouldering at Mission Cliffs.",
         "Insights on GTM strategy for AI startups.",
         "Introduced her to a lead investor at Sequoia.", 9)],
      "2024-01-15", 90, "2024-08-10",
      [OneOffEvent("e1", "New Product Launch", "2024-12-01", today, false)])
  }

  /** The second seed: connected, due yesterday, no reminders. */
  function MarcusThorne(yesterday: string): (c: Contact)
    ensures c.id == "2" && c.status == Connected && c.nextFollowUpDate == yesterday
    ensures c.oneOffEvents == []
  {
    Contact(
      "2", "Marcus Thorne", "GreenHorizon Ventures", "Partner",
      "London, UK", "Oxford University",
      "https://linkedin.com/in/marcusthorne", Connected,
      ["Venture Capital", "Oxford Alumni"],
      [],
      "2024-03-22", 30, yesterday,
      [])
  }

  /** The third seed: pending, with a fixed follow-up date, no reminders. */
  function ElenaRodriguez(): (c: Contact)
    ensures c.id == "3" && c.status == Pending && c.nextFollowUpDate == "2024-06-15"
    ensures c.oneOffEvents == []
  {
    Contact(
      "3", "Elena Rodriguez", "FinLeap", "CTO",
      "Berlin, Germany", "TU Munich",
      "https://linkedin.com/in/elenarodriguez", Pending,
      ["Fintech Enthusiast", "Europe Tech"],
      [],
      "2024-05-01", 14, "2024-06-15",
      [])
  }

  /** The fourth seed: coffee scheduled, due today, no reminders. */
  function DavidKim(today: string): (c: Contact)
    ensures c.id == "4" && c.status == CoffeeScheduled && c.nextFollowUpDate == today
    ensures c.oneOffEvents == []
  {
    Contact(
      "4", "David Kim", "Meta", "E6 Software Engineer",
      "Seattle, WA", "University of Washington",
      "https://linkedin.com/in/davidkim", CoffeeScheduled,
      ["Former Coworker", "Seattle Resident"],
      [Interaction(
         "int2", "2024-05-05", 30,
         "Catch up on distributed systems architecture.",
         "He is currently learning to play the cello.",
         "Referral for an engineering lead position.",
         "Helped him debug a production issue in his side project.", 8)],
      "2024-04-10", 30, today,
      [])
  }

  /** The seed list; `today` and `yesterday` are the ISO dates the session
      computes at start-up. */
  function MockContacts(today: string, yesterday: string): (r: seq<Contact>)
    ensures |r| == 4
    ensures r[0].id == "1" && r[1].id == "2" && r[2].id == "3" && r[3].id == "4"
    ensures |r[0].oneOffEvents| == 1
    ensures r[0].oneOffEvents[0].notifyDate == today && !r[0].oneOffEvents[0].completed
    ensures r[1].nextFollowUpDate == yesterday && r[3].nextFollowUpDate == today
  {
    [SarahChen(today), MarcusThorne(yesterday), ElenaRodriguez(), DavidKim(today)]
  }
}

=== FILE: contact_card.dfy ===
/** A card on the board: its overdue / due-today / pending-event flags, the
    highlight bar they select, the date tone, and the visible commonalities. */
module ContactCard {
  import opened Types
  import opened IsoDates
  import FollowUp

  /** A follow-up date is set and lies strictly before today. */
  predicate IsOverdue(c: Contact, today: string) {
    c.nextFollowUpDate != "" && Less(c.nextFollowUpDate, today)
  }

  predicate IsDueToday(c: Contact, today: string) {
    c.nextFollowUpDate == today
  }

  /** The card tests pending events exactly as the hub's filter does. */
  predicate HasPendingEvent(c: Contact, today: string) {
    FollowUp.HasNotifyEvent(c, today)
  }

  /** A card is never both overdue and due today. */
  lemma OverdueExcludesDueToday(c: Contact, today: string)
    ensures !(IsOverdue(c, today) && IsDueToday(c, today))
  {
    LessIrreflexive(today);
  }

  /** The coloured bar at the card's left edge. */
  datatype Bar = RoseBar | AmberBar | NoBar

  /** Rose when overdue; amber when due today or an event is pending and
      the card is not overdue; no bar otherwise. */
  function HighlightBar(c: Contact, today: string): (r: Bar)
    ensures r == RoseBar <==> IsOverdue(c, today)
    ensures r == AmberBar <==> !IsOverdue(c, today) && (IsDueToday(c, today) || HasPendingEvent(c, today))
  {
    if IsOverdue(c, today) then RoseBar
    else if IsDueToday(c, today) || HasPendingEvent(c, today) then AmberBar
    else NoBar
  }

  /** The board highlights exactly the contacts the hub queues (today is
      never the empty string). */
  lemma HighlightMatchesQueue(c: Contact, today: string)
    requires today != ""
    ensures HighlightBar(c, today) != NoBar <==> FollowUp.NeedsFollowUp(c, today)
  {
    AtMostIsNotGreater(c.nextFollowUpDate, today);
    LessTrichotomy(c.nextFollowUpDate, today);
  }

  /** Every flag the card raises is a reason the hub queues the contact. */
  lemma FlaggedCardIsQueued(c: Contact, today: string)
    requires IsOverdue(c, today) || IsDueToday(c, today) || HasPendingEvent(c, today)
    requires today != ""
    ensures FollowUp.NeedsFollowUp(c, today)
  {
    HighlightMatchesQueue(c, today);
  }

  /** The colour of the follow-up date at the card's foot. */
  datatype Tone = RoseTone | AmberTone | SlateTone

  function DateTone(c: Contact, today: string): (r: Tone)
    ensures r == RoseTone <==> IsOverdue(c, today)
    ensures r == AmberTone <==> IsDueToday(c, today)
  {
    OverdueExcludesDueToday(c, today);
    if IsOverdue(c, today) then RoseTone
    else if IsDueToday(c, today) then AmberTone
    else SlateTone
  }

  /** `commonalities.slice(0, 2)`: at most the first two, in order. */
  function VisibleCommonalities(c: Contact): (r: seq<string>)
    ensures |r| == (if |c.commonalities| < 2 then |c.commonalities| else 2)
    ensures forall i :: 0 <= i < |r| ==> r[i] == c.commonalities[i]
  {
    if |c.commonalities| <= 2 then c.commonalities else c.commonalities[..2]
  }
}

=== FILE: contact_detail.dfy ===
/** The contact detail modal: the cadence the editor starts from, the
    styling of the reminder box, and the ten-dot score display. */
module ContactDetail {
  import opened Types
  import opened IsoDates
  import Constants
  import ContactCard

  /** `followUpInterval || GLOBAL_DEFAULT_INTERVAL`: a zero cadence falls
      back to the default. */
  function InitialCadence(c: Contact): (r: int)
    ensures r != 0
    ensures c.followUpInterval != 0 ==> r == c.followUpInterval
    ensures c.followUpInterval == 0 ==> r == Constants.GlobalDefaultInterval
  {
    if c.followUpInterval != 0 then c.followUpInterval else Constants.GlobalDefaultInterval
  }

  /** The reminder box as the source styles it: overdue whenever the date
      string is below today's, including the unset date `""`. */
  predicate ReminderOverdueAsWritten(c: Contact, today: string) {
    Less(c.nextFollowUpDate, today)
  }

  /** For a set date the reminder box and the board card agree. */
  lemma ReminderAgreesWithCard(c: Contact, today: string)
    requires c.nextFollowUpDate != ""
    ensures ReminderOverdueAsWritten(c, today) <==> ContactCard.IsOverdue(c, today)
  {
  }

  /** An unset date is styled overdue in the modal but not on the card. */
  lemma UnsetReminderStyledOverdue(c: Contact, today: string)
    requires c.nextFollowUpDate == "" && today != ""
    ensures ReminderOverdueAsWritten(c, today)
    ensures !ContactCard.IsOverdue(c, today)
  {
  }

  /** The reminder box guarded like the card: only a set date can be overdue. */
  function ReminderOverdue(c: Contact, today: string): (b: bool)
    ensures b <==> ContactCard.IsOverdue(c, today)
    ensures b ==> ReminderOverdueAsWritten(c, today)
    ensures c.nextFollowUpDate == "" ==> !b
  {
    c.nextFollowUpDate != "" && ReminderOverdueAsWritten(c, today)
  }

  const DotCount: nat := 10

  /** The ten score dots: dot `i` is filled when `i < score`. */
  function ScoreDots(score: int): (r: seq<bool>)
    ensures |r| == DotCount
    ensures forall i :: 0 <= i < |r| ==> (r[i] <==> i < score)
  {
    seq(DotCount, i => i < score)
  }

  /** `score` clamped into `0..10`. */
  function Clamp(score: int): int {
    if score < 0 then 0 else if score > DotCount then DotCount else score
  }

  /** Counts the filled dots: exactly the score clamped into `0..10`. */
  method FilledDots(score: int) returns (n: nat)
    ensures n == Clamp(score)
  {
    var dots := ScoreDots(score);
    n := 0;
    var i := 0;
    while i < DotCount
      invariant 0 <= i <= DotCount
      invariant n == (if score < 0 then 0 else if score > i then i else score)
    {
      if dots[i] {
        n := n + 1;
      }
      i := i + 1;
    }
  }
}

=== FILE: follow_up.dfy ===
/** "Today's Follow-up Hub": which contacts need action today, the order the
    hub lists them in, and the rows each hub card shows. */
module FollowUp {
  import opened Types
  import opened IsoDates
  import opened Seqs

  /** An event needs action once its notify date has arrived and it is not
      yet completed; its `eventDate` plays no part. */
  predicate IsPendingEvent(e: OneOffEvent, today: string) {
    !e.completed && AtMost(e.notifyDate, today)
  }

  /** `oneOffEvents.some(...)`: scans the events left to right. */
  function AnyPendingEvent(events: seq<OneOffEvent>, today: string): (b: bool)
    ensures b <==> exists i :: 0 <= i < |events| && IsPendingEvent(events[i], today)
    decreases |events|
  {
    if |events| == 0 then false
    else if IsPendingEvent(events[0], today) then true
    else
      var rest := AnyPendingEvent(events[1..], today);
      assert forall i :: 1 <= i < |events| ==> events[i] == events[1..][i - 1];
      rest
  }

  /** The nurture-cycle clause: a follow-up date is set and has arrived. */
  predicate NurtureDue(c: Contact, today: string) {
    c.nextFollowUpDate != "" && AtMost(c.nextFollowUpDate, today)
  }

  predicate HasNotifyEvent(c: Contact, today: string) {
    AnyPendingEvent(c.oneOffEvents, today)
  }

  /** The hub's filter predicate. */
  predicate NeedsFollowUp(c: Contact, today: string) {
    NurtureDue(c, today) || HasNotifyEvent(c, today)
  }

  function DueOn(today: string): Contact -> bool {
    (c: Contact) => NeedsFollowUp(c, today)
  }

  /** The contacts that pass the hub's filter, in list order. */
  function DueContacts(cs: seq<Contact>, today: string): (r: seq<Contact>)
    ensures forall x :: x in r <==> x in cs && NeedsFollowUp(x, today)
    ensures IsSubsequence(r, cs)
  {
    var p := DueOn(today);
    FilterIsSubsequence(p, cs);
    FilterMembershipAll(p, cs);
    Filter(p, cs)
  }

  /** The filter keeps each due contact as many times as the list holds it,
      and drops every other one. */
  lemma DueCounts(cs: seq<Contact>, today: string)
    ensures KeepsCounts(DueOn(today), DueContacts(cs, today), cs)
  {
    FilterCountAll(DueOn(today), cs);
  }

  /** The sort key: the follow-up date, with a missing date standing as `""`. */
  function SortKey(c: Contact): string {
    c.nextFollowUpDate
  }

  /** Ascending by sort key under string comparison. */
  predicate Sorted(s: seq<Contact>) {
    forall i, j :: 0 <= i < j < |s| ==> AtMost(SortKey(s[i]), SortKey(s[j]))
  }

  function KeyIs(k: string): Contact -> bool {
    (c: Contact) => SortKey(c) == k
  }

  /** The contacts of `s` whose sort key is `k`, in order. */
  function WithKey(s: seq<Contact>, k: string): seq<Contact> {
    Filter(KeyIs(k), s)
  }

  /** Places `x` before the first element whose key is not smaller than its
      own, so `x` precedes every element with an equal key. */
  function Insert(x: Contact, s: seq<Contact>): (r: seq<Contact>)
    ensures multiset(r) == multiset(s) + multiset{x}
    decreases |s|
  {
    if |s| == 0 || AtMost(SortKey(x), SortKey(s[0])) then [x] + s
    else
      var t := Insert(x, s[1..]);
      assert s == [s[0]] + s[1..];
      [s[0]] + t
  }

  /** The stable sort of `Array.prototype.sort` with the comparator
      `(a.nextFollowUpDate || '').localeCompare(b.nextFollowUpDate || '')`. */
  function SortByFollowUp(s: seq<Contact>): (r: seq<Contact>)
    ensures multiset(r) == multiset(s)
    ensures |r| == |s|
    decreases |s|
  {
    if |s| == 0 then []
    else
      var t := SortByFollowUp(s[1..]);
      assert s == [s[0]] + s[1..];
      Insert(s[0], t)
  }

  /** Inserting keeps a lower bound that the new element and every old
      element respect: the result holds only those elements. */
  lemma InsertKeepsLowerBound(x: Contact, s: seq<Contact>, lo: string)
    requires AtMost(lo, SortKey(x))
    requires forall k :: 0 <= k < |s| ==> AtMost(lo, SortKey(s[k]))
    ensures forall k :: 0 <= k < |Insert(x, s)| ==> AtMost(lo, SortKey(Insert(x, s)[k]))
  {
    var r := Insert(x, s);
    forall k | 0 <= k < |r|
      ensures AtMost(lo, SortKey(r[k]))
    {
      assert r[k] in multiset(r);
      if r[k] != x {
        assert r[k] in multiset(s);
        var m :| 0 <= m < |s| && s[m] == r[k];
      }
    }
  }

  lemma {:induction false} InsertSorted(x: Contact, s: seq<Contact>)
    requires Sorted(s)
    ensures Sorted(Insert(x, s))
    decreases |s|
  {
    var r := Insert(x, s);
    if |s| == 0 {
    } else if AtMost(SortKey(x), SortKey(s[0])) {
      forall i, j | 0 <= i < j < |r|
        ensures AtMost(SortKey(r[i]), SortKey(r[j]))
      {
        if i == 0 {
          assert r[j] == s[j - 1];
          if j > 1 {
            AtMostTransitive(SortKey(x), SortKey(s[0]), SortKey(s[j - 1]));
          }
        } else {
          assert r[i] == s[i - 1] && r[j] == s[j - 1];
        }
      }
    } else {
      AtMostIsNotGreater(SortKey(x), SortKey(s[0]));
      var t := Insert(x, s[1..]);
      InsertSorted(x, s[1..]);
      assert r == [s[0]] + t;
      forall k | 0 <= k < |s[1..]|
        ensures AtMost(SortKey(s[0]), SortKey(s[1..][k]))
      {
        assert s[1..][k] == s[k + 1];
      }
      InsertKeepsLowerBound(x, s[1..], SortKey(s[0]));
      forall i, j | 0 <= i < j < |r|
        ensures AtMost(SortKey(r[i]), SortKey(r[j]))
      {
        if i == 0 {
          assert r[j] == t[j - 1];
        } else {
          assert r[i] == t[i - 1] && r[j] == t[j - 1];
        }
      }
    }
  }

  lemma {:induction false} SortSorted(s: seq<Contact>)
    ensures Sorted(SortByFollowUp(s))
    decreases |s|
  {
    if |s| > 0 {
      SortSorted(s[1..]);
      InsertSorted(s[0], SortByFollowUp(s[1..]));
    }
  }

  lemma WithKeyCons(c: Contact, s: seq<Contact>, k: string)
    ensures WithKey([c] + s, k) == (if SortKey(c) == k then [c] else []) + WithKey(s, k)
  {
    assert ([c] + s)[0] == c;
    assert ([c] + s)[1..] == s;
  }

  /** When `x` belongs after the head, the head stays in front. */
  lemma InsertPasses(x: Contact, s: seq<Contact>)
    requires |s| > 0 && !AtMost(SortKey(x), SortKey(s[0]))
    ensures Insert(x, s) == [s[0]] + Insert(x, s[1..])
    ensures s == [s[0]] + s[1..]
  {
  }

  /** Inserting `x` only adds `x` in front of the contacts sharing its key. */
  lemma {:induction false} InsertStable(x: Contact, s: seq<Contact>, k: string)
    ensures WithKey(Insert(x, s), k) == (if SortKey(x) == k then [x] else []) + WithKey(s, k)
    decreases |s|
  {
    if |s| == 0 || AtMost(SortKey(x), SortKey(s[0])) {
      WithKeyCons(x, s, k);
    } else {
      var t := Insert(x, s[1..]);
      InsertPasses(x, s);
      InsertStable(x, s[1..], k);
      WithKeyCons(s[0], t, k);
      WithKeyCons(s[0], s[1..], k);
      if SortKey(x) == k {
        // `x` passed `s[0]`, so their keys differ.
        assert SortKey(s[0]) != k;
      }
    }
  }

  /** The sort is stable: for every key, the contacts with that key appear
      in the output in exactly their input order. */
  lemma {:induction false} SortStable(s: seq<Contact>, k: string)
    ensures WithKey(SortByFollowUp(s), k) == WithKey(s, k)
    decreases |s|
  {
    if |s| > 0 {
      SortStable(s[1..], k);
      InsertStable(s[0], SortByFollowUp(s[1..]), k);
      WithKeyCons(s[0], s[1..], k);
      assert [s[0]] + s[1..] == s;
    }
  }

  /** The hub's queue: the due contacts, stably sorted by follow-up date. */
  function FollowUpQueue(cs: seq<Contact>, today: string): (q: seq<Contact>)
    ensures forall x :: x in q <==> x in cs && NeedsFollowUp(x, today)
    ensures multiset(q) == multiset(DueContacts(cs, today))
    ensures multiset(q) <= multiset(cs)
    ensures |q| <= |cs|
    ensures Sorted(q)
  {
    var d := DueContacts(cs, today);
    var q := SortByFollowUp(d);
    SortSorted(d);
    FilterMultiset(DueOn(today), cs);
    assert forall x :: x in q <==> x in multiset(d);
    q
  }

  /** The queue holds every due contact as many times as the list does, so
      its length is the number of due entries. */
  lemma QueueCounts(cs: seq<Contact>, today: string)
    ensures KeepsCounts(DueOn(today), FollowUpQueue(cs, today), cs)
  {
    DueCounts(cs, today);
  }

  /** Contacts with the same follow-up date keep their list order in the queue. */
  lemma QueueStable(cs: seq<Contact>, today: string, k: string)
    ensures WithKey(FollowUpQueue(cs, today), k) == WithKey(DueContacts(cs, today), k)
  {
    SortStable(DueContacts(cs, today), k);
  }

  /** A missing date compares below every date, so such contacts lead the queue. */
  lemma UndatedFirst(cs: seq<Contact>, today: string, i: int, j: int)
    requires 0 <= i < |FollowUpQueue(cs, today)| && 0 <= j < |FollowUpQueue(cs, today)|
    requires FollowUpQueue(cs, today)[i].nextFollowUpDate != ""
    requires FollowUpQueue(cs, today)[j].nextFollowUpDate == ""
    ensures j < i
  {
    var q := FollowUpQueue(cs, today);
    if i < j {
      assert AtMost(SortKey(q[i]), SortKey(q[j]));
      EmptyIsLeast(SortKey(q[i]));
    }
  }

  function Uncompleted(): OneOffEvent -> bool {
    (e: OneOffEvent) => !e.completed
  }

  /** Completed events are never a reason to queue a contact: dropping them
      leaves the filter's verdict unchanged. */
  lemma {:induction false} CompletedEventsIgnored(c: Contact, today: string)
    ensures NeedsFollowUp(c.(oneOffEvents := Filter(Uncompleted(), c.oneOffEvents)), today)
        <==> NeedsFollowUp(c, today)
  {
    var p := Uncompleted();
    var kept := Filter(p, c.oneOffEvents);
    if AnyPendingEvent(c.oneOffEvents, today) {
      var i :| 0 <= i < |c.oneOffEvents| && IsPendingEvent(c.oneOffEvents[i], today);
      FilterMembership(p, c.oneOffEvents, c.oneOffEvents[i]);
      var j :| 0 <= j < |kept| && kept[j] == c.oneOffEvents[i];
    }
    if AnyPendingEvent(kept, today) {
      var j :| 0 <= j < |kept| && IsPendingEvent(kept[j], today);
      FilterMembership(p, c.oneOffEvents, kept[j]);
      var i :| 0 <= i < |c.oneOffEvents| && c.oneOffEvents[i] == kept[j];
    }
  }

  function PendingOn(today: string): OneOffEvent -> bool {
    (e: OneOffEvent) => IsPendingEvent(e, today)
  }

  /** The events a hub card lists as "Action needed", in list order, each
      as many times as the contact holds it. */
  function PendingEvents(events: seq<OneOffEvent>, today: string): (r: seq<OneOffEvent>)
    ensures forall e :: e in r <==> e in events && IsPendingEvent(e, today)
    ensures KeepsCounts(PendingOn(today), r, events)
    ensures IsSubsequence(r, events)
    ensures |r| > 0 <==> AnyPendingEvent(events, today)
  {
    var p := PendingOn(today);
    FilterIsSubsequence(p, events);
    FilterMembershipAll(p, events);
    FilterCountAll(p, events);
    var r := Filter(p, events);
    assert |r| > 0 ==> r[0] in r;
    assert forall i :: 0 <= i < |events| && IsPendingEvent(events[i], today) ==> events[i] in r;
    r
  }

  /** What a hub card shows below the name: an optional "Nurture Cycle" row
      and one "Action needed" row per pending event. */
  datatype HubCard = HubCard(nurtureRow: bool, actionRows: seq<OneOffEvent>)

  /** The card as the source builds it: the nurture row is guarded by
      `nextFollowUpDate <= today` alone, so an unset date shows it too. */
  function HubCardAsWritten(c: Contact, today: string): (r: HubCard)
    ensures r.nurtureRow <==> AtMost(c.nextFollowUpDate, today)
    ensures r.actionRows == PendingEvents(c.oneOffEvents, today)
  {
    HubCard(AtMost(c.nextFollowUpDate, today), PendingEvents(c.oneOffEvents, today))
  }

  /** An unset follow-up date still gets a "Nurture Cycle" row on the card
      although it played no part in queueing the contact. */
  lemma HubRowWithoutDate(c: Contact, today: string)
    requires c.nextFollowUpDate == ""
    ensures HubCardAsWritten(c, today).nurtureRow
    ensures !NurtureDue(c, today)
  {
  }

  /** The card with the nurture row guarded like the queue's own clause. */
  function HubCardOf(c: Contact, today: string): (r: HubCard)
    ensures r.nurtureRow <==> NurtureDue(c, today)
    ensures forall e :: e in r.actionRows <==> e in c.oneOffEvents && IsPendingEvent(e, today)
  {
    HubCard(NurtureDue(c, today), PendingEvents(c.oneOffEvents, today))
  }

  /** Every queued contact's card gives at least one reason, and a card
      with a reason belongs to a queued contact. */
  lemma HubCardExplainsQueue(c: Contact, today: string)
    ensures NeedsFollowUp(c, today) <==>
              HubCardOf(c, today).nurtureRow || |HubCardOf(c, today).actionRows| > 0
  {
  }
}

=== FILE: funnel.dfy ===
/** The conversion metrics shown above the board: how many contacts
    accepted an invitation, how many reached a coffee chat, and the two
    integer percentages derived from those counts. */
module Funnel {
  import opened Types
  import opened Seqs

  /** The stages counted as "connected" (the invitation was accepted). */
  predicate IsConnectedStage(s: ContactStatus) {
    s in {Connected, CoffeeScheduled, Nurturing, FollowUpNeeded}
  }

  /** The stages counted as having reached a coffee chat. */
  predicate IsCoffeeStage(s: ContactStatus) {
    s in {CoffeeScheduled, Nurturing, FollowUpNeeded}
  }

  /** Every coffee stage is a connected stage, and the two differ only in `Connected`. */
  lemma CoffeeStagesAreConnected(s: ContactStatus)
    ensures IsCoffeeStage(s) ==> IsConnectedStage(s)
    ensures IsConnectedStage(s) && !IsCoffeeStage(s) <==> s == Connected
  {
  }

  function ConnectedOnes(): Contact -> bool {
    (c: Contact) => IsConnectedStage(c.status)
  }

  function CoffeeOnes(): Contact -> bool {
    (c: Contact) => IsCoffeeStage(c.status)
  }

  /** `Math.round(100 * num / den)` computed exactly: rounding half up. */
  function RoundPercent(num: int, den: int): (r: int)
    requires 0 <= num && 0 < den
    ensures 2 * den * r <= 200 * num + den < 2 * den * (r + 1)
    ensures 0 <= r
    ensures num <= den ==> r <= 100
  {
    var r := (200 * num + den) / (2 * den);
    RoundingBounds(num, den, r);
    r
  }

  lemma RoundingBounds(num: int, den: int, q: int)
    requires 0 <= num && 0 < den && q == (200 * num + den) / (2 * den)
    ensures 2 * den * q <= 200 * num + den < 2 * den * (q + 1)
    ensures 0 <= q
    ensures num <= den ==> q <= 100
  {
    if num <= den && q > 100 {
      MulMonotone(2 * den, 101, q);
    }
  }

  lemma MulMonotone(b: int, m: int, n: int)
    requires 0 < b && m <= n
    ensures b * m <= b * n
  {
  }

  /** The rounded percentage is the one integer within a half of the exact
      ratio (ties going up), so any such integer is it. */
  lemma RoundPercentUnique(num: int, den: int, r: int)
    requires 0 <= num && 0 < den
    requires 2 * den * r <= 200 * num + den < 2 * den * (r + 1)
    ensures r == RoundPercent(num, den)
  {
    var q := RoundPercent(num, den);
    if r < q {
      MulMonotone(2 * den, r + 1, q);
    } else if q < r {
      MulMonotone(2 * den, q + 1, r);
    }
  }

  /** A percentage guarded against a zero denominator. */
  function Rate(num: int, den: int): (r: int)
    requires 0 <= num <= den
    ensures 0 <= r <= 100
    ensures den == 0 ==> r == 0
    ensures den > 0 ==> 2 * den * r <= 200 * num + den < 2 * den * (r + 1)
  {
    if den > 0 then RoundPercent(num, den) else 0
  }

  datatype Stats = Stats(
    total: nat,
    connected: nat,
    coffee: nat,
    invitationSuccessRate: int,
    coffeeConversionRate: int)

  function ComputeStats(cs: seq<Contact>): (r: Stats)
    ensures r.total == |cs|
    ensures r.connected == |Filter(ConnectedOnes(), cs)|
    ensures r.coffee == |Filter(CoffeeOnes(), cs)|
    ensures r.coffee <= r.connected <= r.total
    ensures 0 <= r.invitationSuccessRate <= 100 && 0 <= r.coffeeConversionRate <= 100
    ensures r.total == 0 ==> r.invitationSuccessRate == 0
    ensures r.connected == 0 ==> r.coffeeConversionRate == 0
    ensures r.total > 0 ==> r.invitationSuccessRate == RoundPercent(r.connected, r.total)
    ensures r.connected > 0 ==> r.coffeeConversionRate == RoundPercent(r.coffee, r.connected)
  {
    var total := |cs|;
    var connected := |Filter(ConnectedOnes(), cs)|;
    var coffee := |Filter(CoffeeOnes(), cs)|;
    FilterMonotone(CoffeeOnes(), ConnectedOnes(), cs);
    Stats(total, connected, coffee, Rate(connected, total), Rate(coffee, connected))
  }

  /** The connected count splits into the coffee count and the contacts
      sitting in `Connected` itself. */
  lemma {:induction false} ConnectedSplits(cs: seq<Contact>)
    ensures |Filter(ConnectedOnes(), cs)|
         == |Filter(CoffeeOnes(), cs)| + |Filter(HasStatus(Connected), cs)|
    decreases |cs|
  {
    if |cs| > 0 {
      ConnectedSplits(cs[1..]);
    }
  }
}

=== FILE: gemini.dfy ===
/** The adapter to the hosted model: the reduced record each contact is
    sent as, the period labels, and how a reply or a failure of the call is
    turned into an insight text or an error message. The call itself is an
    oracle: its answer is a parameter. */
module Gemini {
  import opened Types
  import opened Wrappers

  /** The fields of an interaction that are sent. */
  datatype PrunedInteraction = PrunedInteraction(date: string, score: int, note: string, alt: string)

  /** The fields of a contact that are sent; `events` is only the number of
      one-off events. */
  datatype PrunedContact = PrunedContact(
    status: ContactStatus,
    company: string,
    pos: string,
    edu: string,
    loc: string,
    common: seq<string>,
    ints: seq<PrunedInteraction>,
    events: nat)

  function PruneInteraction(i: Interaction): PrunedInteraction {
    PrunedInteraction(i.date, i.score, i.notes, i.altruismRecord)
  }

  /** Copies the sent fields unchanged, each under its short name. */
  function PruneContact(c: Contact): (r: PrunedContact)
    ensures && r.status == c.status && r.company == c.company && r.pos == c.position
            && r.edu == c.education && r.loc == c.location && r.common == c.commonalities
    ensures |r.ints| == |c.interactions|
    ensures forall k :: 0 <= k < |r.ints| ==>
              && r.ints[k].date == c.interactions[k].date
              && r.ints[k].score == c.interactions[k].score
              && r.ints[k].note == c.interactions[k].notes
              && r.ints[k].alt == c.interactions[k].altruismRecord
    ensures r.events == |c.oneOffEvents|
  {
    PrunedContact(
      c.status, c.company, c.position, c.education, c.location, c.commonalities,
      seq(|c.interactions|, k requires 0 <= k < |c.interactions| => PruneInteraction(c.interactions[k])),
      |c.oneOffEvents|)
  }

  /** The contacts agree on everything that is sent. */
  predicate SameAuditFields(a: Contact, b: Contact) {
    && a.status == b.status
    && a.company == b.company
    && a.position == b.position
    && a.education == b.education
    && a.location == b.location
    && a.commonalities == b.commonalities
    && |a.interactions| == |b.interactions|
    && (forall k :: 0 <= k < |a.interactions| ==>
          && a.interactions[k].date == b.interactions[k].date
          && a.interactions[k].score == b.interactions[k].score
          && a.interactions[k].notes == b.interactions[k].notes
          && a.interactions[k].altruismRecord == b.interactions[k].altruismRecord)
    && |a.oneOffEvents| == |b.oneOffEvents|
  }

  /** Two contacts are sent as the same record exactly when they agree on
      the sent fields: names, ids, links, hooks, dates and cadences never
      reach the model, and nothing that is sent is lost. */
  lemma PruneContactExactly(a: Contact, b: Contact)
    ensures PruneContact(a) == PruneContact(b) <==> SameAuditFields(a, b)
  {
    var pa := PruneContact(a);
    var pb := PruneContact(b);
    if pa == pb {
      forall k | 0 <= k < |a.interactions|
        ensures a.interactions[k].date == b.interactions[k].date
        ensures a.interactions[k].score == b.interactions[k].score
        ensures a.interactions[k].notes == b.interactions[k].notes
        ensures a.interactions[k].altruismRecord == b.interactions[k].altruismRecord
      {
        assert pa.ints[k] == pb.ints[k];
      }
    }
    if SameAuditFields(a, b) {
      assert pa.ints == pb.ints;
    }
  }

  /** The dataset sent: one pruned record per contact, in list order. */
  function Prune(cs: seq<Contact>): (r: seq<PrunedContact>)
    ensures |r| == |cs|
    ensures forall i :: 0 <= i < |cs| ==> r[i] == PruneContact(cs[i])
    decreases |cs|
  {
    if |cs| == 0 then []
    else [PruneContact(cs[0])] + Prune(cs[1..])
  }

  /** Pruning works record by record, so it commutes with concatenation. */
  lemma PruneAppend(a: seq<Contact>, b: seq<Contact>)
    ensures Prune(a + b) == Prune(a) + Prune(b)
  {
    var l := Prune(a + b);
    var r := Prune(a) + Prune(b);
    assert |l| == |r|;
    forall i | 0 <= i < |l|
      ensures l[i] == r[i]
    {
      if i < |a| {
        assert (a + b)[i] == a[i];
      } else {
        assert (a + b)[i] == b[i - |a|];
      }
    }
  }

  /** The period wording put into the prompt. */
  function PeriodLabel(p: ReviewPeriod): string {
    match p
    case W => "Weekly (7 days)"
    case M => "Monthly (30 days)"
    case Q => "Quarterly (90 days)"
    case Y => "Yearly (365 days)"
  }

  /** Every period has its own label, so the prompt always tells the
      periods apart. */
  lemma PeriodLabelsDistinct(p: ReviewPeriod, q: ReviewPeriod)
    ensures PeriodLabel(p) == PeriodLabel(q) <==> p == q
  {
  }

  /** What goes out: the period wording and the pruned dataset. */
  datatype AuditRequest = AuditRequest(periodLabel: string, dataset: seq<PrunedContact>)

  function BuildRequest(cs: seq<Contact>, p: ReviewPeriod): (r: AuditRequest)
    ensures r.periodLabel == PeriodLabel(p)
    ensures |r.dataset| == |cs|
    ensures forall i :: 0 <= i < |cs| ==> r.dataset[i] == PruneContact(cs[i])
  {
    AuditRequest(PeriodLabel(p), Prune(cs))
  }

  /** What the remote call does: it answers with some text (possibly empty)
      or fails with an error carrying a message (possibly empty). For a
      non-empty reply, `truthy` says whether the value its JSON text parses
      to is truthy; a text that does not parse is a failure (`Threw`). */
  datatype ApiResponse = Replied(text: string, truthy: bool) | Threw(message: string)

  const EmptyResponseMessage: string := "Empty response from AI"
  const UnknownErrorMessage: string := "Unknown API error during audit."

  /** A non-empty reply is the result: the insight when its parsed value is
      truthy and no insight (`None`) when it is falsy, such as `null`; an
      empty reply and every failure are rethrown with a message that is
      never empty. */
  function Interpret(resp: ApiResponse): (r: Result<Option<string>>)
    ensures r.Ok? <==> resp.Replied? && resp.text != ""
    ensures r.Ok? ==> (r.value.Some? <==> resp.truthy)
    ensures r.Ok? && r.value.Some? ==> r.value.value == resp.text
    ensures r.Err? ==> r.message != ""
    ensures resp.Replied? && resp.text == "" ==> r == Err(EmptyResponseMessage)
    ensures resp.Threw? && resp.message != "" ==> r == Err(resp.message)
    ensures resp.Threw? && resp.message == "" ==> r == Err(UnknownErrorMessage)
  {
    match resp
    case Replied(text, truthy) =>
      if text == "" then Err(EmptyResponseMessage)
      else if truthy then Ok(Some(text))
      else Ok(None)
    case Threw(message) =>
      if message != "" then Err(message) else Err(UnknownErrorMessage)
  }
}

=== FILE: isodates.dfy ===
/** ISO `YYYY-MM-DD` dates are kept as strings and compared lexicographically
    by character. Dafny characters are Unicode scalar values, so this agrees
    with JavaScript's code-unit order on text inside the Basic Multilingual
    Plane, which includes every ISO date. */
module IsoDates {

  /** JavaScript `a < b` on strings of Basic Multilingual Plane text. */
  predicate Less(a: string, b: string)
    decreases |a|
  {
    if |b| == 0 then false
    else if |a| == 0 then true
    else if a[0] != b[0] then a[0] < b[0]
    else Less(a[1..], b[1..])
  }

  /** JavaScript `a <= b` on strings. */
  predicate AtMost(a: string, b: string) {
    Less(a, b) || a == b
  }

  predicate IsDigit(ch: char) {
    '0' <= ch <= '9'
  }

  /** The `YYYY-MM-DD` shape produced by `toISOString().split('T')[0]`. */
  predicate IsIsoDate(s: string) {
    && |s| == 10
    && s[4] == '-' && s[7] == '-'
    && (forall i :: 0 <= i < 10 && i != 4 && i != 7 ==> IsDigit(s[i]))
  }

  lemma {:induction false} LessIrreflexive(a: string)
    ensures !Less(a, a)
    decreases |a|
  {
    if |a| > 0 {
      LessIrreflexive(a[1..]);
    }
  }

  lemma {:induction false} LessAsymmetric(a: string, b: string)
    ensures Less(a, b) ==> !Less(b, a)
    decreases |a|
  {
    if |a| > 0 && |b| > 0 && a[0] == b[0] {
      LessAsymmetric(a[1..], b[1..]);
    }
  }

  lemma {:induction false} LessTransitive(a: string, b: string, c: string)
    requires Less(a, b) && Less(b, c)
    ensures Less(a, c)
    decreases |a|
  {
    if |a| > 0 && a[0] == b[0] && b[0] == c[0] {
      LessTransitive(a[1..], b[1..], c[1..]);
    }
  }

  /** Any two strings are comparable: exactly one of `<`, `==`, `>` holds. */
  lemma {:induction false} LessTrichotomy(a: string, b: string)
    ensures Less(a, b) || a == b || Less(b, a)
    ensures Less(a, b) ==> a != b && !Less(b, a)
    decreases |a|
  {
    LessAsymmetric(a, b);
    if Less(a, b) { LessIrreflexive(a); }
    if |a| > 0 && |b| > 0 && a[0] == b[0] {
      LessTrichotomy(a[1..], b[1..]);
      if a[1..] == b[1..] {
        assert a == [a[0]] + a[1..] && b == [b[0]] + b[1..];
      }
    }
  }

  lemma AtMostTransitive(a: string, b: string, c: string)
    requires AtMost(a, b) && AtMost(b, c)
    ensures AtMost(a, c)
  {
    if Less(a, b) && Less(b, c) {
      LessTransitive(a, b, c);
    }
  }

  /** `!(b < a)` is the same as `a <= b`, so the order is total. */
  lemma AtMostIsNotGreater(a: string, b: string)
    ensures AtMost(a, b) <==> !Less(b, a)
  {
    LessTrichotomy(a, b);
    LessIrreflexive(a);
  }

  /** The empty string precedes every other string. */
  lemma EmptyIsLeast(s: string)
    ensures AtMost("", s)
    ensures Less("", s) <==> s != ""
    ensures AtMost(s, "") <==> s == ""
  {
  }
}

=== FILE: kanban.dfy ===
/** The workflow board: one column per lifecycle stage, each listing the
    contacts in that stage in list order. */
module Kanban {
  import opened Types
  import opened Seqs

  /** The board's columns, left to right. */
  const Columns: seq<ContactStatus> :=
    [Lead, Pending, Connected, CoffeeScheduled, FollowUpNeeded, Nurturing]

  predicate Distinct(cols: seq<ContactStatus>) {
    forall i, j :: 0 <= i < j < |cols| ==> cols[i] != cols[j]
  }

  /** The position of the column of stage `s`. */
  function ColumnIndex(s: ContactStatus): (j: nat)
    ensures j < |Columns| && Columns[j] == s
  {
    match s
    case Lead => 0
    case Pending => 1
    case Connected => 2
    case CoffeeScheduled => 3
    case FollowUpNeeded => 4
    case Nurturing => 5
  }

  /** Each of the six stages has exactly one column. */
  lemma ColumnsListEachStatusOnce()
    ensures |Columns| == 6
    ensures forall s: ContactStatus :: s in Columns
    ensures Distinct(Columns)
  {
    forall s: ContactStatus ensures s in Columns {
      assert Columns[ColumnIndex(s)] == s;
    }
  }

  /** The contacts shown in the column of stage `s`. */
  function Column(cs: seq<Contact>, s: ContactStatus): (r: seq<Contact>)
    ensures forall x :: x in r <==> x in cs && x.status == s
    ensures IsSubsequence(r, cs)
  {
    FilterMembershipAll(HasStatus(s), cs);
    FilterIsSubsequence(HasStatus(s), cs);
    Filter(HasStatus(s), cs)
  }

  lemma ColumnCons(c: Contact, cs: seq<Contact>, s: ContactStatus)
    ensures Column([c] + cs, s) == (if c.status == s then [c] else []) + Column(cs, s)
  {
    assert ([c] + cs)[0] == c;
    assert ([c] + cs)[1..] == cs;
  }

  /** A column of a concatenated list is the concatenation of the columns:
      the board never reorders contacts within a stage. */
  lemma ColumnAppend(a: seq<Contact>, b: seq<Contact>, s: ContactStatus)
    ensures Column(a + b, s) == Column(a, s) + Column(b, s)
  {
    FilterAppend(HasStatus(s), a, b);
  }

  /** "No contacts in this stage" is shown exactly for the empty columns. */
  function ShowsPlaceholder(cs: seq<Contact>, s: ContactStatus): (b: bool)
    ensures b <==> forall x :: x in cs ==> x.status != s
  {
    var col := Column(cs, s);
    assert |col| > 0 ==> col[0] in col;
    |col| == 0
  }

  /** The columns for the stages `cols`, in that order. */
  function Columnize(cols: seq<ContactStatus>, cs: seq<Contact>): (b: seq<seq<Contact>>)
    ensures |b| == |cols|
    ensures forall j :: 0 <= j < |cols| ==> b[j] == Column(cs, cols[j])
    decreases |cols|
  {
    if |cols| == 0 then []
    else [Column(cs, cols[0])] + Columnize(cols[1..], cs)
  }

  function Board(cs: seq<Contact>): seq<seq<Contact>> {
    Columnize(Columns, cs)
  }

  /** The number of cards on a board. */
  function CardCount(b: seq<seq<Contact>>): nat
    decreases |b|
  {
    if |b| == 0 then 0 else |b[0]| + CardCount(b[1..])
  }

  /** One more contact adds one card when its stage has a column, none otherwise. */
  lemma {:induction false} ColumnizeCons(cols: seq<ContactStatus>, c: Contact, cs: seq<Contact>)
    requires Distinct(cols)
    ensures CardCount(Columnize(cols, [c] + cs))
         == CardCount(Columnize(cols, cs)) + (if c.status in cols then 1 else 0)
    decreases |cols|
  {
    if |cols| > 0 {
      ColumnCons(c, cs, cols[0]);
      ColumnizeCons(cols[1..], c, cs);
      assert c.status == cols[0] ==> c.status !in cols[1..];
      assert c.status in cols <==> c.status == cols[0] || c.status in cols[1..];
    }
  }

  lemma {:induction false} EmptyBoard(cols: seq<ContactStatus>)
    ensures CardCount(Columnize(cols, [])) == 0
    decreases |cols|
  {
    if |cols| > 0 {
      EmptyBoard(cols[1..]);
    }
  }

  /** Distinct columns covering every contact's stage hold each contact once. */
  lemma {:induction false} ColumnizePartitions(cols: seq<ContactStatus>, cs: seq<Contact>)
    requires Distinct(cols)
    requires forall x :: x in cs ==> x.status in cols
    ensures CardCount(Columnize(cols, cs)) == |cs|
    decreases |cs|
  {
    if |cs| == 0 {
      EmptyBoard(cols);
    } else {
      assert [cs[0]] + cs[1..] == cs;
      ColumnizePartitions(cols, cs[1..]);
      ColumnizeCons(cols, cs[0], cs[1..]);
    }
  }

  /** The columns partition the list: the board holds as many cards as
      there are contacts. */
  lemma BoardPartitions(cs: seq<Contact>)
    ensures CardCount(Board(cs)) == |cs|
  {
    ColumnsListEachStatusOnce();
    ColumnizePartitions(Columns, cs);
  }

  /** Every contact sits in exactly one column: the one of its stage. */
  lemma ExactlyOneColumn(cs: seq<Contact>, x: Contact)
    requires x in cs
    ensures forall j :: 0 <= j < |Board(cs)| ==> (x in Board(cs)[j] <==> Columns[j] == x.status)
    ensures exists j :: 0 <= j < |Board(cs)| && x in Board(cs)[j]
  {
    ColumnsListEachStatusOnce();
    assert x in Board(cs)[ColumnIndex(x.status)];
  }
}

=== FILE: seed_facts.dfy ===
/** What the seed list gives on a fresh session: the funnel figures and
    the contacts the follow-up hub starts with. */
module SeedFacts {
  import opened Types
  import opened IsoDates
  import opened Seqs
  import Constants
  import Funnel
  import FollowUp

  /** Four contacts, three of them connected and two past a coffee chat:
      75% invitation success and 67% coffee conversion. */
  lemma SeedFunnel(today: string, yesterday: string)
    ensures Funnel.ComputeStats(Constants.MockContacts(today, yesterday)) == Funnel.Stats(4, 3, 2, 75, 67)
  {
    var m := Constants.MockContacts(today, yesterday);
    var connected := Funnel.ConnectedOnes();
    var coffee := Funnel.CoffeeOnes();
    assert m[3..][1..] == [];
    assert m[2..][1..] == m[3..];
    assert m[1..][1..] == m[2..];
    assert Filter(connected, m[3..]) == [m[3]];
    assert Filter(connected, m[2..]) == [m[3]];
    assert Filter(connected, m[1..]) == [m[1], m[3]];
    assert Filter(connected, m) == [m[0], m[1], m[3]];
    assert Filter(coffee, m[3..]) == [m[3]];
    assert Filter(coffee, m[2..]) == [m[3]];
    assert Filter(coffee, m[1..]) == [m[3]];
    assert Filter(coffee, m) == [m[0], m[3]];
  }

  /** With `yesterday` before `today`, the seed due yesterday, the seed due
      today and the seed whose event notifies today all need a follow-up, so
      the hub lists them; the remaining seed needs one exactly when its fixed
      date has arrived. */
  lemma SeedQueue(today: string, yesterday: string)
    requires IsIsoDate(today) && IsIsoDate(yesterday) && Less(yesterday, today)
    ensures var m := Constants.MockContacts(today, yesterday);
            && FollowUp.NeedsFollowUp(m[0], today)
            && FollowUp.NeedsFollowUp(m[1], today)
            && FollowUp.NeedsFollowUp(m[3], today)
            && (FollowUp.NeedsFollowUp(m[2], today) <==> AtMost("2024-06-15", today))
  {
    var m := Constants.MockContacts(today, yesterday);
    assert FollowUp.NeedsFollowUp(m[0], today) by {
      assert FollowUp.IsPendingEvent(m[0].oneOffEvents[0], today);
    }
    assert FollowUp.NeedsFollowUp(m[1], today) by {
      assert |yesterday| == 10;
    }
    assert FollowUp.NeedsFollowUp(m[3], today) by {
      assert |today| == 10;
    }
    assert FollowUp.NeedsFollowUp(m[2], today) <==> AtMost("2024-06-15", today) by {
      assert m[2].oneOffEvents == [];
      assert m[2].nextFollowUpDate == "2024-06-15";
    }
  }
}

=== FILE: seqs.dfy ===
/** The order-preserving `Array.prototype.filter` and the facts about it
    that the queue, the funnel counts and the board columns rely on. */
module Seqs {

  /** Keeps the elements satisfying `p`, in their original order. */
  function Filter<T>(p: T -> bool, s: seq<T>): (r: seq<T>)
    ensures |r| <= |s|
    ensures forall i :: 0 <= i < |r| ==> p(r[i])
    decreases |s|
  {
    if |s| == 0 then []
    else (if p(s[0]) then [s[0]] else []) + Filter(p, s[1..])
  }

  /** `a` can be obtained from `b` by deleting elements. */
  predicate IsSubsequence<T(==)>(a: seq<T>, b: seq<T>)
    decreases |b|
  {
    if |a| == 0 then true
    else if |b| == 0 then false
    else if a[0] == b[0] then IsSubsequence(a[1..], b[1..])
    else IsSubsequence(a, b[1..])
  }

  /** An element survives the filter exactly when it was there and satisfies `p`. */
  lemma {:induction false} FilterMembership<T>(p: T -> bool, s: seq<T>, x: T)
    ensures x in Filter(p, s) <==> x in s && p(x)
    decreases |s|
  {
    if |s| > 0 {
      FilterMembership(p, s[1..], x);
      assert s == [s[0]] + s[1..];
    }
  }

  /** Every element satisfying `p` survives as many times as it occurs,
      and every other element not at all. */
  lemma {:induction false} FilterCount<T>(p: T -> bool, s: seq<T>, x: T)
    ensures multiset(Filter(p, s))[x] == if p(x) then multiset(s)[x] else 0
    decreases |s|
  {
    if |s| > 0 {
      FilterCount(p, s[1..], x);
      assert s == [s[0]] + s[1..];
    }
  }

  /** `r` holds every element of `s` satisfying `p` exactly as often as `s`
      does, and nothing else. */
  ghost predicate KeepsCounts<T(!new)>(p: T -> bool, r: seq<T>, s: seq<T>) {
    forall x :: multiset(r)[x] == if p(x) then multiset(s)[x] else 0
  }

  lemma FilterCountAll<T(!new)>(p: T -> bool, s: seq<T>)
    ensures KeepsCounts(p, Filter(p, s), s)
  {
    forall x ensures multiset(Filter(p, s))[x] == if p(x) then multiset(s)[x] else 0 {
      FilterCount(p, s, x);
    }
  }

  lemma FilterMembershipAll<T>(p: T -> bool, s: seq<T>)
    ensures forall x :: x in Filter(p, s) <==> x in s && p(x)
  {
    forall x ensures x in Filter(p, s) <==> x in s && p(x) {
      FilterMembership(p, s, x);
    }
  }

  /** Filtering only deletes elements: the relative order of the survivors is kept. */
  lemma {:induction false} FilterIsSubsequence<T>(p: T -> bool, s: seq<T>)
    ensures IsSubsequence(Filter(p, s), s)
    decreases |s|
  {
    if |s| > 0 {
      FilterIsSubsequence(p, s[1..]);
      var r := Filter(p, s[1..]);
      if p(s[0]) {
        assert Filter(p, s) == [s[0]] + r;
        assert ([s[0]] + r)[1..] == r;
      } else {
        assert Filter(p, s) == r;
        SubsequenceOfTail(r, s);
      }
    }
  }

  /** Prepending an element to the larger sequence keeps a subsequence one. */
  lemma {:induction false} SubsequenceOfTail<T>(a: seq<T>, b: seq<T>)
    requires |b| > 0 && IsSubsequence(a, b[1..])
    ensures IsSubsequence(a, b)
    decreases |a| + |b|
  {
    if |a| > 0 && a[0] == b[0] {
      SubsequenceDropHead(a, b[1..]);
    }
  }

  /** Dropping the first element of the smaller sequence keeps a subsequence one. */
  lemma {:induction false} SubsequenceDropHead<T>(a: seq<T>, c: seq<T>)
    requires |a| > 0 && IsSubsequence(a, c)
    ensures IsSubsequence(a[1..], c)
    decreases |a| + |c|
  {
    assert |c| > 0;
    if a[0] == c[0] {
      SubsequenceOfTail(a[1..], c);
    } else {
      SubsequenceDropHead(a, c[1..]);
      SubsequenceOfTail(a[1..], c);
    }
  }

  /** Filtering distributes over concatenation. */
  lemma {:induction false} FilterAppend<T>(p: T -> bool, a: seq<T>, b: seq<T>)
    ensures Filter(p, a + b) == Filter(p, a) + Filter(p, b)
    decreases |a|
  {
    if |a| > 0 {
      FilterAppend(p, a[1..], b);
      assert (a + b)[1..] == a[1..] + b;
    } else {
      assert a + b == b;
    }
  }

  /** Filtering keeps a sub-multiset of the input. */
  lemma {:induction false} FilterMultiset<T>(p: T -> bool, s: seq<T>)
    ensures multiset(Filter(p, s)) <= multiset(s)
    decreases |s|
  {
    if |s| > 0 {
      FilterMultiset(p, s[1..]);
      assert s == [s[0]] + s[1..];
    }
  }

  /** A weaker predicate keeps at least as many elements. */
  lemma {:induction false} FilterMonotone<T>(p: T -> bool, q: T -> bool, s: seq<T>)
    requires forall x :: p(x) ==> q(x)
    ensures |Filter(p, s)| <= |Filter(q, s)|
    decreases |s|
  {
    if |s| > 0 {
      FilterMonotone(p, q, s[1..]);
    }
  }
}

=== FILE: types.dfy ===
/** The records of the dashboard: contacts, their logged interactions and
    their one-off reminders, plus the lifecycle stages and review periods. */
module Types {
  import opened Wrappers

  /** The six lifecycle stages a contact moves through. */
  datatype ContactStatus =
    | Lead
    | Pending
    | Connected
    | CoffeeScheduled
    | FollowUpNeeded
    | Nurturing

  /** The string each stage carries at run time (and shows as its label). */
  function StatusValue(s: ContactStatus): string
  {
    match s
    case Lead => "Lead"
    case Pending => "Pending"
    case Connected => "Connected"
    case CoffeeScheduled => "Coffee Scheduled"
    case FollowUpNeeded => "Follow-up Needed"
    case Nurturing => "Nurturing"
  }

  /** Reads a stage back from its string value; any other string names no stage. */
  function ParseStatus(v: string): (r: Option<ContactStatus>)
    ensures r.Some? ==> StatusValue(r.value) == v
  {
    if v == "Lead" then Some(Lead)
    else if v == "Pending" then Some(Pending)
    else if v == "Connected" then Some(Connected)
    else if v == "Coffee Scheduled" then Some(CoffeeScheduled)
    else if v == "Follow-up Needed" then Some(FollowUpNeeded)
    else if v == "Nurturing" then Some(Nurturing)
    else None
  }

  /** Every stage's string parses back to that stage, so the six strings
      are pairwise distinct. */
  lemma StatusValueRoundTrip(s: ContactStatus)
    ensures ParseStatus(StatusValue(s)) == Some(s)
  {
  }

  lemma StatusValuesDistinct(s: ContactStatus, t: ContactStatus)
    ensures StatusValue(s) == StatusValue(t) <==> s == t
  {
    StatusValueRoundTrip(s);
    StatusValueRoundTrip(t);
  }

  /** Selects the contacts in stage `s`. */
  function HasStatus(s: ContactStatus): Contact -> bool {
    (c: Contact) => c.status == s
  }

  /** The length of window an audit covers: weekly, monthly, quarterly, yearly. */
  datatype ReviewPeriod = W | M | Q | Y

  /** The one-letter code of a period. */
  function PeriodCode(p: ReviewPeriod): (r: char)
    ensures r in "WMQY"
  {
    match p
    case W => 'W'
    case M => 'M'
    case Q => 'Q'
    case Y => 'Y'
  }

  /** Only the four letters `W`, `M`, `Q`, `Y` are periods. */
  function ParsePeriod(ch: char): (r: Option<ReviewPeriod>)
    ensures r.Some? <==> ch in "WMQY"
    ensures r.Some? ==> PeriodCode(r.value) == ch
  {
    match ch
    case 'W' => Some(W)
    case 'M' => Some(M)
    case 'Q' => Some(Q)
    case 'Y' => Some(Y)
    case _ => None
  }

  lemma PeriodCodeRoundTrip(p: ReviewPeriod)
    ensures ParsePeriod(PeriodCode(p)) == Some(p)
  {
  }

  /** A logged conversation; `score` is the 0-10 quality rating. */
  datatype Interaction = Interaction(
    id: string,
    date: string,
    duration: int,
    notes: string,
    hook: string,
    valueReceived: string,
    altruismRecord: string,
    score: int)

  /** A named reminder: `eventDate` is when it happens, `notifyDate` is when
      it becomes actionable; only `notifyDate` and `completed` matter for
      follow-up. */
  datatype OneOffEvent = OneOffEvent(
    id: string,
    name: string,
    eventDate: string,
    notifyDate: string,
    completed: bool)

  /** A tracked person: exactly one `status` and one `nextFollowUpDate`
      (the empty string when none is set). */
  datatype Contact = Contact(
    id: string,
    name: string,
    company: string,
    position: string,
    location: string,
    education: string,
    linkedinUrl: string,
    status: ContactStatus,
    commonalities: seq<string>,
    interactions: seq<Interaction>,
    createdAt: string,
    followUpInterval: int,
    nextFollowUpDate: string,
    oneOffEvents: seq<OneOffEvent>)
}

=== FILE: wrappers.dfy ===
/** Optional values and success/failure results, used wherever the source
    has `null` or throws an `Error` carrying a message. */
module Wrappers {

  datatype Option<+T> = None | Some(value: T)

  /** `Err` carries the `message` of the JavaScript `Error` that was thrown. */
  datatype Result<+T> = Ok(value: T) | Err(message: string)
}
